=== FILE: README.md ===
# random-picker in Dafny

A model of the filter-and-sample query engine of the random-picker
repository, which recommends a random anime, book or other item from a
table. The repository implements the engine several times:

- `RandomPicker.py`: Flask over a Postgres table (`Item_name`, `Genres`,
  `Score`, `Type`). It decodes the fetched rows, lists the types, looks up
  the genres of a type and picks a random item with at least a minimum
  score, optionally restricted to a genre and a type.
- `app.py`: Flask over a book CSV (`tag`, `book_name`, `star`). It lists the
  tags and picks a random book with at least a minimum star rating,
  optionally restricted to a tag.
- `src/lib/server/helper.ts` and `src/lib/helpers.ts`: polars helpers for
  the SvelteKit app. They give genre and type lookups and one random row
  matching a type, a genre and a minimum score.
- `src/routes/+page.server.ts`: the SvelteKit page. `load` lists the types.
  The default form action validates the form with zod and returns one item
  whose type and genre match and whose score is strictly above the
  requested one.
- `src/routes/schema.ts`: a zod schema for type, genre and score.

Each file is one module. A table is an immutable `seq` of records, and a
missing cell of an optional column is `None`. In `RandomPicker` a
non-numeric score is `None` too, because `pd.to_numeric(...,
errors='coerce')` turns it into NaN (RandomPicker.py:70). Three modules
are shared:

- `Wrappers` holds `Option` and `Result`.
- `Frame` holds the data-frame operations every variant uses. These are
  boolean-mask filtering (`Where`, `WhereIf`), `dropna().unique()`
  (`Distinct`, in first-seen order, as pandas computes it), the reading
  of one column (`Column`) and the draw of one row (`Pick`).
- `Items` holds the media record and its lookups.

The random source is a parameter. `Pick(rows, draw)` returns
`rows[draw % |rows|]`, and the lemmas show that every surviving row is
returned for some draw. Number parsing (`float` in Python, `Number` in
JavaScript) and UTF-8 decoding are also parameters, of type
`string -> Option<real>` and `seq<bv8> -> Option<string>`. `None` means
that the conversion raises, or that it gives NaN.

The variants really differ, and each module keeps its own behaviour:

| variant | score test | genre/tag and type filters | bad number |
|---|---|---|---|
| `RandomPicker` | `>=` | only when supplied and non-empty | treated as 0 |
| `BookApp` | `>=` | tag only when supplied and non-empty | raises (server error) |
| `ServerHelper` | `>=` | always applied | not applicable |
| `PageServer` | `>` (strict) | always applied | `fail(400)` |

## Model

| member | source | states |
|---|---|---|
| `Frame.Where` | RandomPicker.py:119 | a boolean-mask filter keeps exactly the rows of the frame that satisfy the mask and never grows the frame |
| `Frame.WhereAppend` | RandomPicker.py:119 | filtering a frame made of two parts gives the filtered first part followed by the filtered second part, so kept rows stay in their original order |
| `Frame.WhereCount` | RandomPicker.py:119-125 | a filter keeps every kept row as many times as it occurs and drops every other row entirely |
| `Frame.WhereIf` | RandomPicker.py:122-125 | a filter step whose argument was not supplied leaves the frame unchanged; otherwise it keeps exactly the matching rows |
| `Frame.WhereIfCount` | RandomPicker.py:122-125 | a conditional filter step preserves the multiplicity of every row it keeps |
| `Frame.WhereWhere` | src/lib/server/helper.ts:46-49 | two chained filters select the same rows, in the same order, as the single filter on their conjunction |
| `Frame.Distinct` | RandomPicker.py:101 | `dropna().unique()` has no duplicates and contains a value exactly when the column holds it as a non-null value |
| `Frame.DistinctFirstSeenOrder` | app.py:14 | pandas `unique()` lists values in the order the column first mentions them |
| `Frame.Pick` | RandomPicker.py:131 | `sample(n=1)` on a non-empty frame returns one of its rows |
| `Frame.PickCovers` | RandomPicker.py:131 | draw `i` selects row `i`, and so does the draw one row count later |
| `Frame.PickPeriodic` | RandomPicker.py:131 | two draws that differ by a multiple of the row count select the same row |
| `Frame.PickReaches` | RandomPicker.py:131 | every row of a non-empty frame is returned by some draw |
| `Frame.Bracketed` | RandomPicker.py:133 | the answer is the name enclosed in `《` and `》`, with the name intact between them |
| `Frame.BracketedInjective` | app.py:35 | two different names never give the same bracketed answer |
| `Items.TypesOf` | RandomPicker.py:90 | the type list has no duplicates and holds exactly the non-null `Type` values of the table |
| `Items.GenresOf` | RandomPicker.py:100-101 | the genre list has no duplicates and holds exactly the non-null `Genres` of rows whose `Type` equals the argument |
| `RandomPicker.DecodeRow` | RandomPicker.py:66 | decoding keeps the row's length and column order, turns bytes into text and leaves other values alone; it fails exactly when some bytes are not valid UTF-8 |
| `RandomPicker.DecodeRows` | RandomPicker.py:64-67 | the decoding loop succeeds exactly when every row decodes, and then keeps the row count and each row's decoding |
| `RandomPicker.Index` | RandomPicker.py:88-91 | an empty frame gives the load-failure page; otherwise the page lists every type once |
| `RandomPicker.GetGenres` | RandomPicker.py:96-101 | a missing or empty `type` gives the 400 "Please select a type" reply, never an empty list; otherwise every genre of that exact type once |
| `RandomPicker.GetGenresFirstSeenOrder` | RandomPicker.py:101 | the genres come in the order the rows of that type first mention them |
| `RandomPicker.MinScore` | RandomPicker.py:111-116 | an unparseable `min_score` gives 0, a parseable one passes through, and a missing one is the parse of "0" |
| `RandomPicker.Survivors` | RandomPicker.py:119-125 | a row survives exactly when it has a present score at least the threshold, and matches the genre and the type when each is supplied and non-empty |
| `RandomPicker.SurvivorsCount` | RandomPicker.py:119-125 | surviving rows keep their multiplicity, so an argument that is absent or empty removes nothing |
| `RandomPicker.RandomItem` | RandomPicker.py:119-133 | the reply is the 404 "No items match the criteria" exactly when no row survives; otherwise it is the bracketed name of a surviving row |
| `RandomPicker.RandomItemReachesEvery` | RandomPicker.py:131-133 | every surviving row is the answer for some draw |
| `RandomPicker.UnparseableMinScoreIsZero` | RandomPicker.py:113-116 | an unparseable `min_score` behaves like `min_score=0` and like no `min_score` at all |
| `RandomPicker.ThresholdAboveMaximum` | RandomPicker.py:119-128 | a threshold above every score in the table gives the 404 reply |
| `RandomPicker.ExampleGenres` | RandomPicker.py:100-101 | on a three-row table, the genres of type "A" are exactly "x" then "y" |
| `RandomPicker.ExampleThreshold` | RandomPicker.py:119-133 | on the same table, type "A" with `min_score=5` always returns 《Foo》 |
| `RandomPicker.ExampleNothing` | RandomPicker.py:119-128 | on the same table, genre "x" with `min_score=10` gives the 404 reply |
| `BookApp.Tags` | app.py:14 | the tag list has no duplicates and holds exactly the non-null tags of the table |
| `BookApp.TagsFirstSeenOrder` | app.py:14 | tags come in the order the table first mentions them |
| `BookApp.MinStar` | app.py:21 | a missing `min_star` is exactly 0; a supplied one must convert, and one that does not is an error, with no fallback |
| `BookApp.Survivors` | app.py:24-26 | a book survives exactly when its star rating is present and at least the threshold, and it carries the tag if one is supplied and non-empty |
| `BookApp.SurvivorsCount` | app.py:24-26 | surviving books keep their multiplicity, and no tag removes nothing |
| `BookApp.RandomBook` | app.py:21-35 | a bad `min_star` raises; otherwise the reply is "没有符合条件的书籍" exactly when no book survives, and the bracketed name of a surviving book when some book does |
| `BookApp.RandomBookReachesEvery` | app.py:33-35 | every surviving book is the answer for some draw |
| `ServerHelper.GetGenres` | src/lib/server/helper.ts:12-21 | no duplicates and no nulls, and exactly the genres of rows whose `Type` equals the argument |
| `ServerHelper.GetTypes` | src/lib/server/helper.ts:23-30 | exactly the non-null `Type` values, each once |
| `ServerHelper.Filtered` | src/lib/server/helper.ts:46-49 | the three chained filters equal the single conjunctive filter on score, genre and type |
| `ServerHelper.ChainIsConjunction` | src/lib/server/helper.ts:46-49 | any three chained filters equal the filter on their conjunction |
| `ServerHelper.FilterOrderIrrelevant` | src/lib/server/helper.ts:46-49 | applying the type, genre and score filters in reverse order gives the same rows |
| `ServerHelper.GetSampleOne` | src/lib/server/helper.ts:45-58 | `null` exactly when no row has score at least `score` and the exact genre and type; otherwise a one-element array holding such a row |
| `ServerHelper.GetSampleOneReachesEvery` | src/lib/server/helper.ts:55-57 | every matching row is the sample for some draw |
| `Helpers.GetGenres` | src/lib/helpers.ts:12-21 | no duplicates and no nulls; every genre belongs to a row of exactly that type, every such genre appears, and an unknown type gives the empty array |
| `PageServer.Load` | src/routes/+page.server.ts:7-16 | the page lists exactly the non-null `Type` values, each once |
| `PageServer.FromEntries` | src/routes/+page.server.ts:29 | a form field reads the last entry with that key, and is absent exactly when no entry has the key |
| `PageServer.ScoreOf` | src/routes/+page.server.ts:21 | the score is accepted only from a string that converts to a number; a missing field or a file is NaN and is rejected |
| `PageServer.ParseForm` | src/routes/+page.server.ts:18-29 | parsing succeeds exactly when `type` and `genre` are strings and `score` converts, and then passes the three values through |
| `PageServer.DefaultAction` | src/routes/+page.server.ts:25-47 | a form that does not parse and an empty filtered subset both give `fail(400, {missing: true})`; success returns the requested type and the name of a row that matches type, genre and a strictly greater score |
| `PageServer.DefaultActionReachesEvery` | src/routes/+page.server.ts:37-43 | every matching row is the answer for some draw |
| `PageServer.MissingScoreFails` | src/routes/+page.server.ts:21 | a form with no `score` entry always fails with 400 |
| `PageServer.EqualScoreExcluded` | src/routes/+page.server.ts:35 | a row whose score equals the requested one is dropped here, but the inclusive `getSampleOne` keeps it |
| `Schema.Parse` | src/routes/schema.ts:3-7 | succeeds exactly when type and genre are non-empty strings and the score is missing or a number of at least 0; a missing score becomes 0; a failure names exactly the invalid fields |
| `Schema.ParseIdempotent` | src/routes/schema.ts:3-7 | a parsed value passes the schema again unchanged |
| `Schema.NegativeScoreRejected` | src/routes/schema.ts:6 | a negative score is always rejected, with an issue on the score field |

## Left out

- The database connection, the query, environment loading and the
  empty-result checks of the loader (RandomPicker.py:9-62, 69-83) are I/O.
  Only the row decoding is modelled, and tables are given as sequences of
  records.
- Building records from decoded rows is not modelled. This covers the
  column lookup by name and the `pd.to_numeric` coercion of `Score`
  (RandomPicker.py:69-70). CSV reading with pandas or polars (app.py:9,
  helper.ts:3-10, helpers.ts:4-10) is not modelled either.
- `float`, `Number` and `pd.to_numeric` are abstract conversions. NaN,
  infinities and IEEE-754 rounding are not modelled: scores and thresholds
  are reals, and a conversion to NaN counts as failed. A threshold of NaN,
  which `float("nan")` accepts, is therefore not modelled.
- RandomPicker.MinScore: a missing `min_score` is the conversion of the
  string "0". It is 0 only when that conversion gives 0, as `float` does,
  so the contract states it under that condition.
- UTF-8 decoding is an abstract conversion that may fail.
- Uniform randomness of `sample(n=1)` is not modelled. The model proves only
  that the pick is a surviving row, that every surviving row is reachable,
  and that draws differing by a multiple of the row count pick the same
  row. It states nothing about how often each row is drawn.
- The order of polars `unique()` is unspecified. `ServerHelper`, `Helpers`
  and `PageServer` state only the contents of their lists and that they
  have no duplicates.
- HTTP routing, JSON bodies, response headers, template rendering, the
  server start (app.py:37-38) and `exit(1)` on an empty table
  (RandomPicker.py:81-83) are not modelled. Error replies are datatypes
  that carry their status and message; `BookApp.NoBooks` carries only its
  message and keeps Flask's default status 200.
- `BookApp`, `ServerHelper`, `Helpers` and `PageServer` are modelled only on
  tables whose score column (`star` or `Score`) holds numbers or empty
  cells. Neither `pd.read_csv` (app.py:9) nor polars `readCSV`
  (src/lib/server/helper.ts:5-10, src/lib/helpers.ts:5-10) converts text
  to numbers; the `Float64` there is only a type annotation. With a text
  cell in that column the comparison raises or misbehaves instead of
  dropping the row.
- The label column (`Item_name` in `Items.Item`, `book_name` in
  `BookApp.Book`) is a plain `string`, so a row whose label is missing is
  not modelled. The sources accept such a row and answer with it:
  RandomPicker.py:132-133 formats a NULL as `《None》`, app.py:34-35 formats
  an empty cell (NaN to pandas) as `《nan》`, src/lib/server/helper.ts:55
  returns a row whose `Item_name` is null, and
  src/routes/+page.server.ts:37-43 returns `name: null`.
- The first column returned by `toSeries()` (+page.server.ts:37) is taken to
  be `Item_name`, the first column the table's type declares
  (helpers.ts:5-10). The CSV file itself is not part of this model.
- In the page action, polars may raise on `sample(1)` of an empty frame
  instead of returning an empty array. Both paths end in
  `fail(400, {missing: true})`, and the model has that one outcome.
- src/routes/api/genres/+server.ts is a thin wrapper. Its rule that a
  missing `type` gives 400 matches `RandomPicker.GetGenres`.
- Zod's handling of values other than the ones `Schema.JsValue` lists
  (objects, booleans, infinities) is not modelled. The model also does not
  cover `min(1)` counting UTF-16 code units rather than characters; the two
  agree on whether a string is empty.

=== FILE: BookApp.dfy ===
/** The Flask picker over the Douban book CSV: a tag list for the home page
    and a random book at or above a minimum star rating. */
module BookApp {
  import opened Wrappers
  import opened Frame

  /** One row of the book table: columns `tag`, `book_name` and `star`; the
      book name is taken to be always present. */
  datatype Book = Book(tag: Option<string>, bookName: string, star: Option<real>)

  /** The `tag` cell of a row, the reader of `df['tag']`. */
  function TagCell(b: Book): Option<string> {
    b.tag
  }

  /** The home page's `df['tag'].dropna().unique()`: every tag of the table,
      once each, in order of first appearance. */
  function Tags(table: seq<Book>): (r: seq<string>)
    ensures NoDuplicates(r)
    ensures forall t :: t in r <==> exists b :: b in table && b.tag == Some(t)
  {
    var column := Column(table, TagCell);
    assert forall t :: Some(t) in column <==> exists b :: b in table && b.tag == Some(t) by {
      forall t
        ensures Some(t) in column ==> exists b :: b in table && b.tag == Some(t)
      {
        if Some(t) in column {
          var i :| 0 <= i < |column| && column[i] == Some(t);
          assert table[i] in table;
        }
      }
    }
    Distinct(column)
  }

  /** Tags are listed in the order the table first mentions them. */
  lemma TagsFirstSeenOrder(table: seq<Book>, i: nat, j: nat)
    requires i < j < |Tags(table)|
    ensures Some(Tags(table)[i]) in Column(table, TagCell) && Some(Tags(table)[j]) in Column(table, TagCell)
    ensures FirstIndex(Column(table, TagCell), Some(Tags(table)[i])) < FirstIndex(Column(table, TagCell), Some(Tags(table)[j]))
  {
    DistinctFirstSeenOrder(Column(table, TagCell), i, j);
  }

  /** `float(...)` raising `ValueError`, which Flask answers with a server error. */
  datatype ConversionError = ValueError

  /** `float(request.args.get('min_star', 0))`: a missing argument is the
      number 0 (`float(0)` parses no string and cannot fail), a supplied one
      must convert, and a string `float` rejects raises instead of falling
      back. */
  function MinStar(arg: Option<string>, parse: string -> Option<real>): (r: Result<real, ConversionError>)
    ensures arg.None? ==> r == Success(0.0)
    ensures arg.Some? ==> (r.Failure? <==> parse(arg.value).None?)
    ensures arg.Some? && r.Success? ==> r.value == parse(arg.value).value
  {
    match arg
    case None => Success(0.0)
    case Some(text) =>
      match parse(text)
      case Some(x) => Success(x)
      case None => Failure(ValueError)
  }

  /** `df['star'] >= min_star`: a missing rating never passes. */
  predicate StarAtLeast(b: Book, minStar: real) {
    b.star.Some? && b.star.value >= minStar
  }

  /** A book survives when its star rating is present and at least the
      threshold, and it carries the selected tag if one is supplied. */
  predicate Survives(b: Book, selectedTag: Option<string>, minStar: real) {
    && StarAtLeast(b, minStar)
    && (Supplied(selectedTag) ==> b.tag == Some(selectedTag.value))
  }

  /** The two filtering steps of `/random_book`: the star threshold, then
      the tag when supplied. */
  function Survivors(table: seq<Book>, selectedTag: Option<string>, minStar: real): (r: seq<Book>)
    ensures forall b :: b in r <==> b in table && Survives(b, selectedTag, minStar)
  {
    var byStar := Where(table, b => StarAtLeast(b, minStar));
    WhereIf(byStar, Supplied(selectedTag), (b: Book) => b.tag == selectedTag)
  }

  /** The survivors are the surviving books with their multiplicities: no
      tag, or an empty one, filters nothing. */
  lemma SurvivorsCount(table: seq<Book>, selectedTag: Option<string>, minStar: real)
    ensures forall b :: multiset(Survivors(table, selectedTag, minStar))[b]
                     == if Survives(b, selectedTag, minStar) then multiset(table)[b] else 0
  {
    var atLeast := b => StarAtLeast(b, minStar);
    WhereCount(table, atLeast);
    WhereIfCount(Where(table, atLeast), Supplied(selectedTag), (b: Book) => b.tag == selectedTag);
  }

  /** The answers of `/random_book`; `NoBooks` keeps the default status 200
      and `Raised` is the uncaught conversion error. */
  datatype BookReply = BookName(bookName: string) | NoBooks(message: string) | Raised(error: ConversionError)

  const NoBooksMessage := "没有符合条件的书籍"

  /** `/random_book`: a bad `min_star` raises; otherwise no match gives the
      message and a match gives the bracketed name of one surviving book. */
  function RandomBook(table: seq<Book>, selectedTag: Option<string>, minStarArg: Option<string>,
                      parse: string -> Option<real>, draw: nat): (r: BookReply)
    ensures r.Raised? <==> MinStar(minStarArg, parse).Failure?
    ensures r.NoBooks? <==> (MinStar(minStarArg, parse).Success? &&
      forall b :: b in table ==> !Survives(b, selectedTag, MinStar(minStarArg, parse).value))
    ensures r.NoBooks? ==> r.message == NoBooksMessage
    ensures r.BookName? ==> exists b :: b in table && Survives(b, selectedTag, MinStar(minStarArg, parse).value)
                                     && r.bookName == Bracketed(b.bookName)
  {
    match MinStar(minStarArg, parse)
    case Failure(e) => Raised(e)
    case Success(minStar) =>
      var subset := Survivors(table, selectedTag, minStar);
      if |subset| == 0 then NoBooks(NoBooksMessage)
      else BookName(Bracketed(Pick(subset, draw).bookName))
  }

  /** Every surviving book is a possible answer: some draw returns it. */
  lemma RandomBookReachesEvery(table: seq<Book>, selectedTag: Option<string>, minStarArg: Option<string>,
                               parse: string -> Option<real>, b: Book)
    requires MinStar(minStarArg, parse).Success?
    requires b in table && Survives(b, selectedTag, MinStar(minStarArg, parse).value)
    ensures exists draw: nat :: RandomBook(table, selectedTag, minStarArg, parse, draw) == BookName(Bracketed(b.bookName))
  {
    var subset := Survivors(table, selectedTag, MinStar(minStarArg, parse).value);
    var i :| 0 <= i < |subset| && subset[i] == b;
    PickCovers(subset, i);
    assert RandomBook(table, selectedTag, minStarArg, parse, i) == BookName(Bracketed(b.bookName));
  }
}

=== FILE: Frame.dfy ===
/** The data-frame operations every variant of the picker is built from:
    boolean-mask filtering, `dropna().unique()` of a column, and drawing one
    row of a non-empty frame.  A frame is an immutable sequence of rows.
    Two request helpers the Flask variants share sit alongside: the
    truthiness test of a query argument (`Supplied`) and the `《name》`
    display form of the answer (`Bracketed`). */
module Frame {
  import opened Wrappers

  /** Python truthiness of an optional query argument: present and non-empty. */
  predicate Supplied(arg: Option<string>) {
    arg.Some? && arg.value != ""
  }

  predicate NoDuplicates<T(==)>(s: seq<T>) {
    forall i, j :: 0 <= i < j < |s| ==> s[i] != s[j]
  }

  /** `df[mask]`: the rows for which `keep` holds, in their original order
      (`WhereAppend`), each with its original multiplicity (`WhereCount`). */
  function Where<T(==, !new)>(rows: seq<T>, keep: T -> bool): (r: seq<T>)
    ensures |r| <= |rows|
    ensures forall x :: x in r <==> x in rows && keep(x)
  {
    if |rows| == 0 then []
    else
      var rest := Where(rows[1..], keep);
      assert rows == [rows[0]] + rows[1..];
      if keep(rows[0]) then [rows[0]] + rest else rest
  }

  /** Filtering keeps every kept row as often as it occurs and drops every
      other row entirely. */
  lemma {:induction false} WhereCount<T(!new)>(rows: seq<T>, keep: T -> bool)
    ensures forall x :: multiset(Where(rows, keep))[x] == if keep(x) then multiset(rows)[x] else 0
  {
    if |rows| > 0 {
      assert rows == [rows[0]] + rows[1..];
      WhereCount(rows[1..], keep);
    }
  }

  lemma WhereCons<T(!new)>(x: T, rows: seq<T>, keep: T -> bool)
    ensures Where([x] + rows, keep) == if keep(x) then [x] + Where(rows, keep) else Where(rows, keep)
  {
    assert ([x] + rows)[1..] == rows;
  }

  /** Filtering distributes over concatenation, so the kept rows stay in
      the order the frame holds them. */
  lemma {:induction false} WhereAppend<T(!new)>(s: seq<T>, t: seq<T>, keep: T -> bool)
    ensures Where(s + t, keep) == Where(s, keep) + Where(t, keep)
  {
    if |s| > 0 {
      assert s + t == [s[0]] + (s[1..] + t);
      assert s == [s[0]] + s[1..];
      WhereAppend(s[1..], t, keep);
      WhereCons(s[0], s[1..] + t, keep);
      WhereCons(s[0], s[1..], keep);
    } else {
      assert s + t == t;
    }
  }

  /** Two masks applied one after the other select exactly what their
      conjunction `both` selects, in the same order. */
  lemma {:induction false} WhereWhere<T(!new)>(rows: seq<T>, p: T -> bool, q: T -> bool, both: T -> bool)
    requires forall x :: both(x) <==> p(x) && q(x)
    ensures Where(Where(rows, p), q) == Where(rows, both)
  {
    if |rows| > 0 {
      assert rows == [rows[0]] + rows[1..];
      WhereWhere(rows[1..], p, q, both);
      WhereCons(rows[0], rows[1..], p);
      WhereCons(rows[0], rows[1..], both);
      if p(rows[0]) {
        WhereCons(rows[0], Where(rows[1..], p), q);
      }
    }
  }

  /** A filter step that applies only when its argument was supplied; an
      inactive step leaves the rows unchanged. */
  function WhereIf<T(==, !new)>(rows: seq<T>, active: bool, keep: T -> bool): (r: seq<T>)
    ensures forall x :: x in r <==> x in rows && (active ==> keep(x))
    ensures !active ==> r == rows
  {
    if active then Where(rows, keep) else rows
  }

  lemma WhereIfCount<T(!new)>(rows: seq<T>, active: bool, keep: T -> bool)
    ensures forall x :: multiset(WhereIf(rows, active, keep))[x] == if !active || keep(x) then multiset(rows)[x] else 0
  {
    if active {
      WhereCount(rows, keep);
    }
  }

  /** `df[column]`: the cell `f` reads from each row, row by row. */
  function Column<R, V>(table: seq<R>, f: R -> V): (c: seq<V>)
    ensures |c| == |table|
    ensures forall i :: 0 <= i < |table| ==> c[i] == f(table[i])
  {
    seq(|table|, i requires 0 <= i < |table| => f(table[i]))
  }

  /** `column.dropna().unique()` as pandas computes it: every present value
      exactly once, in the order of its first appearance. */
  function Distinct<T(==, !new)>(column: seq<Option<T>>): (r: seq<T>)
    ensures NoDuplicates(r)
    ensures forall v :: v in r <==> Some(v) in column
  {
    if |column| == 0 then []
    else
      var front := column[..|column| - 1];
      assert column == front + [column[|column| - 1]];
      var seen := Distinct(front);
      match column[|column| - 1]
      case Some(v) => if v in seen then seen else seen + [v]
      case None => seen
  }

  /** Position of the first occurrence of `x` in `s`. */
  function FirstIndex<T(==)>(s: seq<T>, x: T): (i: nat)
    requires x in s
    ensures i < |s| && s[i] == x && x !in s[..i]
  {
    if s[0] == x then 0
    else
      var k := FirstIndex(s[1..], x);
      assert s[..k + 1] == [s[0]] + s[1..][..k];
      k + 1
  }

  lemma FirstIndexUnique<T>(s: seq<T>, x: T, i: nat)
    requires i < |s| && s[i] == x && x !in s[..i]
    ensures FirstIndex(s, x) == i
  {
  }

  lemma FirstIndexExtend<T>(s: seq<T>, y: T, x: T)
    requires x in s
    ensures FirstIndex(s + [y], x) == FirstIndex(s, x)
  {
    var k := FirstIndex(s, x);
    assert (s + [y])[..k] == s[..k];
    FirstIndexUnique(s + [y], x, k);
  }

  /** The values `Distinct` reports appear in the order in which the column
      first mentions them. */
  lemma {:induction false} DistinctFirstSeenOrder<T(!new)>(column: seq<Option<T>>, i: nat, j: nat)
    requires i < j < |Distinct(column)|
    ensures Some(Distinct(column)[i]) in column && Some(Distinct(column)[j]) in column
    ensures FirstIndex(column, Some(Distinct(column)[i])) < FirstIndex(column, Some(Distinct(column)[j]))
  {
    var n := |column|;
    var front := column[..n - 1];
    var last := column[n - 1];
    assert column == front + [last];
    var seen := Distinct(front);
    var r := Distinct(column);
    assert Some(r[i]) in column && Some(r[j]) in column;
    if j < |seen| {
      assert r[i] == seen[i] && r[j] == seen[j];
      DistinctFirstSeenOrder(front, i, j);
      FirstIndexExtend(front, last, Some(r[i]));
      FirstIndexExtend(front, last, Some(r[j]));
    } else {
      // the value at j was appended because `last` introduced it
      assert r == seen + [last.value] && last.value !in seen;
      assert Some(r[j]) !in front;
      assert column[..n - 1] == front;
      FirstIndexUnique(column, Some(r[j]), n - 1);
      assert r[i] == seen[i];
      FirstIndexExtend(front, last, Some(r[i]));
    }
  }

  /** `sample(n=1)` with the random source made explicit: `draw` is the
      generator's output, reduced onto the rows of a non-empty frame. */
  function Pick<T>(rows: seq<T>, draw: nat): (r: T)
    requires |rows| > 0
    ensures r in rows
  {
    rows[draw % |rows|]
  }

  /** Every row can be drawn: draw `i` and draw `i + |rows|` both select
      row `i`. */
  lemma PickCovers<T>(rows: seq<T>, i: nat)
    requires i < |rows|
    ensures Pick(rows, i) == rows[i]
    ensures Pick(rows, i + |rows|) == rows[i]
  {
    PickPeriodic(rows, i, 1);
  }

  /** Draws that differ by a multiple of `|rows|` select the same row. */
  lemma PickPeriodic<T>(rows: seq<T>, draw: nat, k: nat)
    requires |rows| > 0
    ensures Pick(rows, draw + k * |rows|) == Pick(rows, draw)
  {
    var n := |rows|;
    ModUnique(draw + k * n, n, draw / n + k, draw % n);
  }

  /** Only a zero multiple of `n` lies strictly between `-n` and `n`. */
  lemma SmallMultiple(k: int, n: int)
    requires n > 0 && -n < k * n < n
    ensures k == 0
  {
  }

  /** Euclidean division leaves one remainder: writing `a` as `q * n + r`
      with `0 <= r < n` fixes `r` as `a % n`. */
  lemma ModUnique(a: int, n: int, q: int, r: int)
    requires n > 0 && 0 <= r < n && a == q * n + r
    ensures a % n == r
  {
    var q', r' := a / n, a % n;
    assert a == q' * n + r';
    assert (q - q') * n == r' - r;
    SmallMultiple(q - q', n);
  }

  lemma PickReaches<T>(rows: seq<T>, x: T)
    requires x in rows
    ensures exists draw: nat :: Pick(rows, draw) == x
  {
    var i :| 0 <= i < |rows| && rows[i] == x;
    PickCovers(rows, i);
  }

  /** The display form `《name》` both Flask variants answer with. */
  function Bracketed(name: string): (s: string)
    ensures |s| == |name| + 2
    ensures s[0] == '《' && s[|s| - 1] == '》' && s[1..|s| - 1] == name
  {
    "《" + name + "》"
  }

  /** The bracketed form keeps the name recoverable. */
  lemma BracketedInjective(a: string, b: string)
    requires Bracketed(a) == Bracketed(b)
    ensures a == b
  {
    var s := Bracketed(a);
    assert a == s[1..|s| - 1];
  }
}

=== FILE: Helpers.dfy ===
/** The shared polars helper of the SvelteKit app, used by the page and the
    genre endpoint. */
module Helpers {
  import opened Frame
  import opened Items

  /** `getGenres(type)`: no nulls, no duplicates, exactly the genres of rows
      whose `Type` equals `t` (case-sensitively); a type no row carries
      gives the empty array. */
  function GetGenres(table: seq<Item>, t: string): (r: seq<string>)
    ensures NoDuplicates(r)
    ensures forall g :: g in r ==> exists x :: x in table && HasType(x, t) && HasGenre(x, g)
    ensures forall x :: x in table && HasType(x, t) && x.genres.Some? ==> x.genres.value in r
    ensures (forall x :: x in table ==> !HasType(x, t)) ==> r == []
  {
    GenresOf(table, t)
  }
}

=== FILE: Items.dfy ===
/** The media table shared by the Postgres picker and the SvelteKit
    variants: one row per item, with columns `Item_name`, `Genres`, `Score`
    and `Type`.  A missing cell of an optional column is `None`; in the
    Postgres picker so is a score that `pd.to_numeric` cannot convert.  The
    name is taken to be always present. */
module Items {
  import opened Wrappers
  import opened Frame

  datatype Item = Item(name: string, genres: Option<string>, score: Option<real>, itemType: Option<string>)

  /** `df['Score'] >= threshold`: a missing score never passes. */
  predicate ScoreAtLeast(x: Item, threshold: real) {
    x.score.Some? && x.score.value >= threshold
  }

  /** `df['Score'] > threshold`, the strict comparison. */
  predicate ScoreAbove(x: Item, threshold: real) {
    x.score.Some? && x.score.value > threshold
  }

  /** `df['Genres'] == genre`: exact, case-sensitive; a missing genre never matches. */
  predicate HasGenre(x: Item, genre: string) {
    x.genres == Some(genre)
  }

  /** `df['Type'] == t`: exact, case-sensitive; a missing type never matches. */
  predicate HasType(x: Item, t: string) {
    x.itemType == Some(t)
  }

  /** The mask `df['Type'] == t`. */
  function OfType(t: string): Item -> bool {
    x => HasType(x, t)
  }

  /** The `Type` cell of a row, the reader of `df['Type']`. */
  function TypeCell(x: Item): Option<string> {
    x.itemType
  }

  /** The `Genres` cell of a row, the reader of `df['Genres']`. */
  function GenreCell(x: Item): Option<string> {
    x.genres
  }

  /** `df['Type'].dropna().unique()`: every category some row carries, once each. */
  function TypesOf(table: seq<Item>): (r: seq<string>)
    ensures NoDuplicates(r)
    ensures forall t :: t in r <==> exists x :: x in table && HasType(x, t)
  {
    var column := Column(table, TypeCell);
    assert forall t :: Some(t) in column <==> exists x :: x in table && HasType(x, t) by {
      forall t
        ensures Some(t) in column ==> exists x :: x in table && HasType(x, t)
      {
        if Some(t) in column {
          var i :| 0 <= i < |column| && column[i] == Some(t);
          assert table[i] in table && HasType(table[i], t);
        }
      }
    }
    Distinct(column)
  }

  /** `df[df['Type'] == t]['Genres'].dropna().unique()`: every genre carried
      by a row of category `t`, once each. */
  function GenresOf(table: seq<Item>, t: string): (r: seq<string>)
    ensures NoDuplicates(r)
    ensures forall g :: g in r <==> exists x :: x in table && HasType(x, t) && HasGenre(x, g)
  {
    var ofType := Where(table, OfType(t));
    var column := Column(ofType, GenreCell);
    assert forall g :: Some(g) in column <==> exists x :: x in ofType && HasGenre(x, g) by {
      forall g
        ensures Some(g) in column ==> exists x :: x in ofType && HasGenre(x, g)
      {
        if Some(g) in column {
          var i :| 0 <= i < |column| && column[i] == Some(g);
          assert ofType[i] in ofType && HasGenre(ofType[i], g);
        }
      }
    }
    Distinct(column)
  }
}

=== FILE: PageServer.dfy ===
/** The SvelteKit page: `load` lists the types, and the default form action
    validates the posted form with zod and answers with one item matching a
    type, a genre and a score strictly above the requested one. */
module PageServer {
  import opened Wrappers
  import opened Frame
  import opened Items
  import ServerHelper

  /** `load`: the non-null `Type` values, once each. */
  function Load(table: seq<Item>): (types: seq<string>)
    ensures NoDuplicates(types)
    ensures forall t :: t in types <==> exists x :: x in table && HasType(x, t)
  {
    TypesOf(table)
  }

  // ---------------------------------------------------------------------
  // Form decoding

  /** A value of a posted form: a string, or an uploaded file. */
  datatype FormValue = Text(text: string) | Upload

  /** `Object.fromEntries(formData)` read at `key`: the value of the LAST
      entry with that key, absent when no entry has it. */
  function FromEntries(entries: seq<(string, FormValue)>, key: string): (r: Option<FormValue>)
    ensures r.None? <==> forall i :: 0 <= i < |entries| ==> entries[i].0 != key
    ensures r.Some? ==> exists i :: 0 <= i < |entries| && entries[i] == (key, r.value)
                                  && forall j :: i < j < |entries| ==> entries[j].0 != key
  {
    if |entries| == 0 then None
    else
      var n := |entries| - 1;
      if entries[n].0 == key then Some(entries[n].1)
      else FromEntries(entries[..n], key)
  }

  /** The validated form: `type`, `genre` and the numeric `score`. */
  datatype Form = Form(itemType: string, genre: string, score: real)

  /** `FormData.parse` throwing. */
  datatype ParseError = ZodError

  /** `z.string()`: only a string is accepted (the empty one included). */
  predicate IsText(v: Option<FormValue>) {
    v.Some? && v.value.Text?
  }

  /** `z.preprocess((v) => Number(v), z.number())`: the value is converted
      with `Number` and must not be NaN.  `Number` of a missing field or of
      a file is NaN; on strings it is `toNumber`, `None` standing for NaN. */
  function ScoreOf(v: Option<FormValue>, toNumber: string -> Option<real>): (r: Option<real>)
    ensures r.Some? ==> IsText(v) && toNumber(v.value.text) == r
    ensures IsText(v) && toNumber(v.value.text).Some? ==> r.Some?
  {
    if IsText(v) then toNumber(v.value.text) else None
  }

  /** `FormData.parse(Object.fromEntries(data))`: succeeds exactly when
      `type` and `genre` are strings and `score` converts to a number, and
      then passes the three values through. */
  function ParseForm(entries: seq<(string, FormValue)>, toNumber: string -> Option<real>): (r: Result<Form, ParseError>)
    ensures r.Success? <==> IsText(FromEntries(entries, "type")) && IsText(FromEntries(entries, "genre"))
                            && ScoreOf(FromEntries(entries, "score"), toNumber).Some?
    ensures r.Success? ==> r.value.itemType == FromEntries(entries, "type").value.text
    ensures r.Success? ==> r.value.genre == FromEntries(entries, "genre").value.text
    ensures r.Success? ==> toNumber(FromEntries(entries, "score").value.text) == Some(r.value.score)
  {
    var t := FromEntries(entries, "type");
    var g := FromEntries(entries, "genre");
    var s := ScoreOf(FromEntries(entries, "score"), toNumber);
    if IsText(t) && IsText(g) && s.Some? then Success(Form(t.value.text, g.value.text, s.value))
    else Failure(ZodError)
  }

  // ---------------------------------------------------------------------
  // Default action

  /** The filter of the default action; the score test is strict. */
  predicate Matches(x: Item, f: Form) {
    HasType(x, f.itemType) && HasGenre(x, f.genre) && ScoreAbove(x, f.score)
  }

  /** `fail(400, {missing: true})`, or the success payload with the
      requested type and the first column (`Item_name`) of the chosen row. */
  datatype ActionResult = Fail(status: nat, missing: bool) | Succeeded(itemType: string, name: string)

  /** The default action: a form that does not parse and a filter that
      leaves nothing both fail with 400; otherwise the requested type comes
      back unchanged with the name of one matching row chosen by `draw`. */
  function DefaultAction(table: seq<Item>, entries: seq<(string, FormValue)>,
                         toNumber: string -> Option<real>, draw: nat): (r: ActionResult)
    ensures r.Fail? ==> r == Fail(400, true)
    ensures ParseForm(entries, toNumber).Failure? ==> r.Fail?
    ensures ParseForm(entries, toNumber).Success? ==>
      (r.Fail? <==> forall x :: x in table ==> !Matches(x, ParseForm(entries, toNumber).value))
    ensures r.Succeeded? ==>
      && ParseForm(entries, toNumber).Success?
      && r.itemType == ParseForm(entries, toNumber).value.itemType
      && exists x :: x in table && Matches(x, ParseForm(entries, toNumber).value) && r.name == x.name
  {
    match ParseForm(entries, toNumber)
    case Failure(_) => Fail(400, true)
    case Success(form) =>
      var subset := Where(table, x => Matches(x, form));
      if |subset| == 0 then Fail(400, true)
      else Succeeded(form.itemType, Pick(subset, draw).name)
  }

  /** Every matching row is a possible answer of the action. */
  lemma DefaultActionReachesEvery(table: seq<Item>, entries: seq<(string, FormValue)>,
                                  toNumber: string -> Option<real>, x: Item)
    requires ParseForm(entries, toNumber).Success?
    requires x in table && Matches(x, ParseForm(entries, toNumber).value)
    ensures exists draw: nat :: DefaultAction(table, entries, toNumber, draw)
                             == Succeeded(ParseForm(entries, toNumber).value.itemType, x.name)
  {
    var form := ParseForm(entries, toNumber).value;
    var subset := Where(table, y => Matches(y, form));
    var i :| 0 <= i < |subset| && subset[i] == x;
    PickCovers(subset, i);
    assert DefaultAction(table, entries, toNumber, i) == Succeeded(form.itemType, x.name);
  }

  /** A form without a `score` entry never parses: `Number(undefined)` is NaN. */
  lemma MissingScoreFails(table: seq<Item>, entries: seq<(string, FormValue)>,
                          toNumber: string -> Option<real>, draw: nat)
    requires forall i :: 0 <= i < |entries| ==> entries[i].0 != "score"
    ensures DefaultAction(table, entries, toNumber, draw) == Fail(400, true)
  {
  }

  /** The strict test drops a row whose score equals the requested one,
      which the inclusive `getSampleOne` of the server helper keeps. */
  lemma EqualScoreExcluded(x: Item, entries: seq<(string, FormValue)>,
                           toNumber: string -> Option<real>, draw: nat)
    requires ParseForm(entries, toNumber).Success?
    requires x.itemType == Some(ParseForm(entries, toNumber).value.itemType)
    requires x.genres == Some(ParseForm(entries, toNumber).value.genre)
    requires x.score == Some(ParseForm(entries, toNumber).value.score)
    ensures DefaultAction([x], entries, toNumber, draw) == Fail(400, true)
    ensures var f := ParseForm(entries, toNumber).value;
      ServerHelper.GetSampleOne([x], ServerHelper.Params(f.itemType, f.genre, f.score), draw) == Some([x])
  {
  }
}

=== FILE: RandomPicker.dfy ===
/** The Flask picker backed by Postgres: decoding of fetched rows, the
    type list of the home page, the genre lookup and the filtered random
    pick. */
module RandomPicker {
  import opened Wrappers
  import opened Frame
  import opened Items

  // ---------------------------------------------------------------------
  // Decoding of fetched rows

  type Byte = bv8

  /** One value of a fetched database row. */
  datatype Cell = Bytes(data: seq<Byte>) | Text(text: string) | Number(number: real) | Null

  /** `item.decode('utf-8') if isinstance(item, bytes) else item`; `utf8`
      answers `None` where the bytes are not valid UTF-8 and decoding raises. */
  function DecodeCell(c: Cell, utf8: seq<Byte> -> Option<string>): Option<Cell> {
    match c
    case Bytes(data) => if utf8(data).Some? then Some(Text(utf8(data).value)) else None
    case _ => Some(c)
  }

  /** Decoding a row keeps its length and column order, turns every byte
      value into text and leaves every other value alone; it fails exactly
      when some byte value is not valid UTF-8. */
  function DecodeRow(row: seq<Cell>, utf8: seq<Byte> -> Option<string>): (r: Option<seq<Cell>>)
    ensures r.Some? <==> forall i :: 0 <= i < |row| && row[i].Bytes? ==> utf8(row[i].data).Some?
    ensures r.Some? ==> |r.value| == |row|
    ensures r.Some? ==> forall i :: 0 <= i < |row| && row[i].Bytes? ==> r.value[i] == Text(utf8(row[i].data).value)
    ensures r.Some? ==> forall i :: 0 <= i < |row| && !row[i].Bytes? ==> r.value[i] == row[i]
  {
    if |row| == 0 then Some([])
    else
      match (DecodeCell(row[0], utf8), DecodeRow(row[1..], utf8))
      case (Some(c), Some(rest)) => Some([c] + rest)
      case _ => None
  }

  /** The decoding loop over all fetched rows.  A failure raises inside the
      loader's `try`, whose handler returns an empty frame: `None` here. */
  function DecodeRows(rows: seq<seq<Cell>>, utf8: seq<Byte> -> Option<string>): (r: Option<seq<seq<Cell>>>)
    ensures r.Some? <==> forall i :: 0 <= i < |rows| ==> DecodeRow(rows[i], utf8).Some?
    ensures r.Some? ==> |r.value| == |rows|
    ensures r.Some? ==> forall i :: 0 <= i < |rows| ==> DecodeRow(rows[i], utf8) == Some(r.value[i])
  {
    if |rows| == 0 then Some([])
    else
      match (DecodeRow(rows[0], utf8), DecodeRows(rows[1..], utf8))
      case (Some(d), Some(rest)) => Some([d] + rest)
      case _ => None
  }

  // ---------------------------------------------------------------------
  // Home page

  datatype IndexPage = LoadError(message: string) | TypeChoices(types: seq<string>)

  const LoadFailedMessage := "Data loading failed, please try again later."

  /** The home page lists every category once, or reports a failed load
      when the frame is empty. */
  function Index(table: seq<Item>): (p: IndexPage)
    ensures p.LoadError? <==> |table| == 0
    ensures p.LoadError? ==> p.message == LoadFailedMessage
    ensures p.TypeChoices? ==> NoDuplicates(p.types)
    ensures p.TypeChoices? ==> forall t :: t in p.types <==> exists x :: x in table && HasType(x, t)
  {
    if |table| == 0 then LoadError(LoadFailedMessage) else TypeChoices(TypesOf(table))
  }

  // ---------------------------------------------------------------------
  // Genre lookup

  datatype GenresReply = GenreList(genres: seq<string>) | BadRequest(status: nat, message: string)

  const SelectTypeMessage := "Please select a type"

  /** `/get_genres`: a missing or empty `type` is a 400 error, never an
      empty list; otherwise every genre of that type, once each. */
  function GetGenres(table: seq<Item>, selectedType: Option<string>): (r: GenresReply)
    ensures r.BadRequest? <==> !Supplied(selectedType)
    ensures r.BadRequest? ==> r.status == 400 && r.message == SelectTypeMessage
    ensures r.GenreList? ==> NoDuplicates(r.genres)
    ensures r.GenreList? ==> forall g :: g in r.genres <==>
      exists x :: x in table && HasType(x, selectedType.value) && HasGenre(x, g)
  {
    if !Supplied(selectedType) then BadRequest(400, SelectTypeMessage)
    else GenreList(GenresOf(table, selectedType.value))
  }

  /** The genres are listed in the order the rows of that type first
      mention them. */
  lemma GetGenresFirstSeenOrder(table: seq<Item>, selectedType: Option<string>, i: nat, j: nat)
    requires GetGenres(table, selectedType).GenreList?
    requires i < j < |GetGenres(table, selectedType).genres|
    ensures var column := Column(Where(table, OfType(selectedType.value)), GenreCell);
      var genres := GetGenres(table, selectedType).genres;
      && Some(genres[i]) in column && Some(genres[j]) in column
      && FirstIndex(column, Some(genres[i])) < FirstIndex(column, Some(genres[j]))
  {
    DistinctFirstSeenOrder(Column(Where(table, OfType(selectedType.value)), GenreCell), i, j);
  }

  // ---------------------------------------------------------------------
  // Random pick

  /** `float(request.args.get('min_score', '0'))`, falling back to 0 when
      the conversion raises; `parse` is `float` on strings, `None` where it
      raises. */
  function MinScore(arg: Option<string>, parse: string -> Option<real>): (m: real)
    ensures arg.Some? && parse(arg.value).None? ==> m == 0.0
    ensures arg.Some? && parse(arg.value).Some? ==> m == parse(arg.value).value
    ensures arg.None? && parse("0") == Some(0.0) ==> m == 0.0
  {
    var text := if arg.Some? then arg.value else "0";
    match parse(text)
    case Some(x) => x
    case None => 0.0
  }

  /** A row survives when its score reaches the threshold and it matches
      every supplied genre/type argument. */
  predicate Survives(x: Item, genre: Option<string>, selectedType: Option<string>, threshold: real) {
    && ScoreAtLeast(x, threshold)
    && (Supplied(genre) ==> HasGenre(x, genre.value))
    && (Supplied(selectedType) ==> HasType(x, selectedType.value))
  }

  /** The three filtering steps of `/random_item`, in source order: the
      score threshold, then the genre and the type when supplied. */
  function Survivors(table: seq<Item>, genre: Option<string>, selectedType: Option<string>, threshold: real): (r: seq<Item>)
    ensures forall x :: x in r <==> x in table && Survives(x, genre, selectedType, threshold)
  {
    var byScore := Where(table, x => ScoreAtLeast(x, threshold));
    var byGenre := WhereIf(byScore, Supplied(genre), (x: Item) => x.genres == genre);
    WhereIf(byGenre, Supplied(selectedType), (x: Item) => x.itemType == selectedType)
  }

  /** The survivors are the surviving rows of the table with their
      multiplicities: a step whose argument is not supplied drops nothing. */
  lemma SurvivorsCount(table: seq<Item>, genre: Option<string>, selectedType: Option<string>, threshold: real)
    ensures forall x :: multiset(Survivors(table, genre, selectedType, threshold))[x]
                     == if Survives(x, genre, selectedType, threshold) then multiset(table)[x] else 0
  {
    var atLeast := x => ScoreAtLeast(x, threshold);
    var byScore := Where(table, atLeast);
    var ofGenre := (x: Item) => x.genres == genre;
    var byGenre := WhereIf(byScore, Supplied(genre), ofGenre);
    WhereCount(table, atLeast);
    WhereIfCount(byScore, Supplied(genre), ofGenre);
    WhereIfCount(byGenre, Supplied(selectedType), (x: Item) => x.itemType == selectedType);
  }

  datatype ItemReply = ItemName(itemName: string) | NotFound(status: nat, message: string)

  const NoItemsMessage := "No items match the criteria"

  /** `/random_item`: a 404 exactly when no row survives, otherwise the
      bracketed name of one surviving row, chosen by `draw`. */
  function RandomItem(table: seq<Item>, genre: Option<string>, selectedType: Option<string>,
                      minScore: Option<string>, parse: string -> Option<real>, draw: nat): (r: ItemReply)
    ensures r.NotFound? <==> forall x :: x in table ==> !Survives(x, genre, selectedType, MinScore(minScore, parse))
    ensures r.NotFound? ==> r.status == 404 && r.message == NoItemsMessage
    ensures r.ItemName? ==> exists x :: x in table && Survives(x, genre, selectedType, MinScore(minScore, parse))
                                     && r.itemName == Bracketed(x.name)
  {
    var subset := Survivors(table, genre, selectedType, MinScore(minScore, parse));
    if |subset| == 0 then NotFound(404, NoItemsMessage)
    else
      var x := Pick(subset, draw);
      ItemName(Bracketed(x.name))
  }

  /** Every surviving row is a possible answer: some draw returns it. */
  lemma RandomItemReachesEvery(table: seq<Item>, genre: Option<string>, selectedType: Option<string>,
                               minScore: Option<string>, parse: string -> Option<real>, x: Item)
    requires x in table && Survives(x, genre, selectedType, MinScore(minScore, parse))
    ensures exists draw: nat :: RandomItem(table, genre, selectedType, minScore, parse, draw) == ItemName(Bracketed(x.name))
  {
    var subset := Survivors(table, genre, selectedType, MinScore(minScore, parse));
    var i :| 0 <= i < |subset| && subset[i] == x;
    PickCovers(subset, i);
    assert RandomItem(table, genre, selectedType, minScore, parse, i) == ItemName(Bracketed(x.name));
  }

  /** An unparseable `min_score` behaves exactly like `min_score=0`. */
  lemma UnparseableMinScoreIsZero(table: seq<Item>, genre: Option<string>, selectedType: Option<string>,
                                  bad: string, parse: string -> Option<real>, draw: nat)
    requires parse(bad).None? && parse("0") == Some(0.0)
    ensures RandomItem(table, genre, selectedType, Some(bad), parse, draw)
         == RandomItem(table, genre, selectedType, Some("0"), parse, draw)
    ensures RandomItem(table, genre, selectedType, Some(bad), parse, draw)
         == RandomItem(table, genre, selectedType, None, parse, draw)
  {
  }

  /** A threshold above every score in the table finds nothing. */
  lemma ThresholdAboveMaximum(table: seq<Item>, genre: Option<string>, selectedType: Option<string>,
                              minScore: Option<string>, parse: string -> Option<real>, draw: nat)
    requires forall x :: x in table && x.score.Some? ==> x.score.value < MinScore(minScore, parse)
    ensures RandomItem(table, genre, selectedType, minScore, parse, draw) == NotFound(404, NoItemsMessage)
  {
  }

  /** The three-row table of the examples below. */
  predicate IsExampleTable(table: seq<Item>) {
    table == [Item("Foo", Some("x"), Some(8.0), Some("A")),
              Item("Bar", Some("y"), Some(3.0), Some("A")),
              Item("Baz", Some("x"), Some(9.0), Some("B"))]
  }

  /** The genres of type "A" come back in first-seen order. */
  lemma ExampleGenres(table: seq<Item>)
    requires IsExampleTable(table)
    ensures GetGenres(table, Some("A")) == GenreList(["x", "y"])
  {
    var p := OfType("A");
    assert p(table[0]) && p(table[1]) && !p(table[2]);
    WhereCons(table[2], [], p);
    assert table[2..] == [table[2]] + [];
    assert Where(table[2..], p) == [];
    WhereCons(table[1], table[2..], p);
    assert table[1..] == [table[1]] + table[2..];
    assert Where(table[1..], p) == [table[1]];
    WhereCons(table[0], table[1..], p);
    assert table == [table[0]] + table[1..];
    assert Where(table, p) == [table[0], table[1]];
    var column := Column(Where(table, p), GenreCell);
    assert column == [Some("x"), Some("y")];
    assert GenresOf(table, "A") == Distinct(column);
    assert Distinct([Some("x"), Some("y")]) == ["x", "y"] by {
      var c := [Some("x"), Some("y")];
      assert c[..1] == [Some("x")];
      assert c[..1][..0] == [];
    }
  }

  /** Only "Foo" is of type "A" with a score of at least 5, so every draw returns it. */
  lemma ExampleThreshold(table: seq<Item>, parse: string -> Option<real>, draw: nat)
    requires IsExampleTable(table) && parse("5") == Some(5.0)
    ensures RandomItem(table, None, Some("A"), Some("5"), parse, draw) == ItemName(Bracketed("Foo"))
  {
  }

  /** No row reaches a score of 10. */
  lemma ExampleNothing(table: seq<Item>, parse: string -> Option<real>, draw: nat)
    requires IsExampleTable(table) && parse("10") == Some(10.0)
    ensures RandomItem(table, Some("x"), None, Some("10"), parse, draw) == NotFound(404, NoItemsMessage)
  {
  }
}

=== FILE: Schema.dfy ===
/** The zod `schema` of the SvelteKit app: a non-empty `type`, a non-empty
    `genre` and a `score` of at least 0 that defaults to 0. */
module Schema {
  import opened Wrappers

  /** The JavaScript values a field can hold, as far as zod distinguishes them. */
  datatype JsValue = Undefined | Null | Str(s: string) | Num(n: real) | NotANumber | OtherValue

  datatype Field = TypeField | GenreField | ScoreField

  datatype Params = Params(itemType: string, genre: string, score: real)

  /** `z.string().min(1)`. */
  predicate NonEmptyString(v: JsValue) {
    v.Str? && |v.s| >= 1
  }

  /** `z.number().min(0).default(0)`: `undefined` takes the default; NaN,
      `null`, strings and negative numbers are rejected. */
  predicate ValidScore(v: JsValue) {
    v.Undefined? || (v.Num? && v.n >= 0.0)
  }

  function ScoreValue(v: JsValue): real
    requires ValidScore(v)
  {
    if v.Undefined? then 0.0 else v.n
  }

  /** `schema.parse`: on success the three values pass through, with a
      missing score read as 0; on failure zod reports an issue for exactly
      the fields that are invalid. */
  function Parse(itemType: JsValue, genre: JsValue, score: JsValue): (r: Result<Params, set<Field>>)
    ensures r.Success? <==> NonEmptyString(itemType) && NonEmptyString(genre) && ValidScore(score)
    ensures r.Success? ==> r.value.itemType == itemType.s && r.value.genre == genre.s
    ensures r.Success? && score.Undefined? ==> r.value.score == 0.0
    ensures r.Success? && score.Num? ==> r.value.score == score.n
    ensures r.Failure? ==> r.error != {}
    ensures r.Failure? ==> (TypeField in r.error <==> !NonEmptyString(itemType))
    ensures r.Failure? ==> (GenreField in r.error <==> !NonEmptyString(genre))
    ensures r.Failure? ==> (ScoreField in r.error <==> !ValidScore(score))
  {
    var issues :=
      (if NonEmptyString(itemType) then {} else {TypeField})
      + (if NonEmptyString(genre) then {} else {GenreField})
      + (if ValidScore(score) then {} else {ScoreField});
    if issues == {} then Success(Params(itemType.s, genre.s, ScoreValue(score)))
    else Failure(issues)
  }

  /** What the schema outputs, it accepts again unchanged. */
  lemma ParseIdempotent(itemType: JsValue, genre: JsValue, score: JsValue)
    requires Parse(itemType, genre, score).Success?
    ensures var p := Parse(itemType, genre, score).value;
      Parse(Str(p.itemType), Str(p.genre), Num(p.score)) == Success(p)
  {
  }

  /** A negative score is rejected, whatever the other fields hold. */
  lemma NegativeScoreRejected(itemType: JsValue, genre: JsValue, n: real)
    requires n < 0.0
    ensures Parse(itemType, genre, Num(n)).Failure?
    ensures ScoreField in Parse(itemType, genre, Num(n)).error
  {
  }
}

=== FILE: ServerHelper.dfy ===
/** The server-side polars helpers of the SvelteKit app: genre and type
    lookups and one random row matching a type, a genre and a minimum score.
    Polars' `unique()` promises no order, so the lookups are stated as sets
    without duplicates. */
module ServerHelper {
  import opened Wrappers
  import opened Frame
  import opened Items

  /** `getGenres(type)`: the genres of rows whose `Type` is exactly `t`,
      without nulls and without duplicates. */
  function GetGenres(table: seq<Item>, t: string): (r: seq<string>)
    ensures NoDuplicates(r)
    ensures forall g :: g in r <==> exists x :: x in table && HasType(x, t) && HasGenre(x, g)
  {
    GenresOf(table, t)
  }

  /** `getTypes()`: every non-null `Type` of the table, once each. */
  function GetTypes(table: seq<Item>): (r: seq<string>)
    ensures NoDuplicates(r)
    ensures forall t :: t in r <==> exists x :: x in table && HasType(x, t)
  {
    TypesOf(table)
  }

  datatype Params = Params(itemType: string, genre: string, score: real)

  /** The conjunction all three filters of `getSampleOne` test; none of them
      is optional, so an empty genre matches only the genre `""`. */
  predicate Matches(x: Item, p: Params) {
    ScoreAtLeast(x, p.score) && HasGenre(x, p.genre) && HasType(x, p.itemType)
  }

  /** The chained filters of `getSampleOne`, in source order: score, genre,
      type.  They select what the single conjunctive filter selects. */
  function Filtered(table: seq<Item>, p: Params): (r: seq<Item>)
    ensures r == Where(table, x => Matches(x, p))
  {
    var byScore := x => ScoreAtLeast(x, p.score);
    var byGenre := x => HasGenre(x, p.genre);
    var byType := x => HasType(x, p.itemType);
    var r := Where(Where(Where(table, byScore), byGenre), byType);
    ChainIsConjunction(table, byScore, byGenre, byType, x => Matches(x, p));
    r
  }

  /** Three masks applied in a row select what their conjunction selects. */
  lemma ChainIsConjunction(table: seq<Item>, a: Item -> bool, b: Item -> bool, c: Item -> bool, all: Item -> bool)
    requires forall x :: all(x) <==> a(x) && b(x) && c(x)
    ensures Where(Where(Where(table, a), b), c) == Where(table, all)
  {
    var ab := x => a(x) && b(x);
    WhereWhere(table, a, b, ab);
    WhereWhere(table, ab, c, all);
  }

  /** The order of the three filters does not matter: type first, then
      genre, then score selects the same rows in the same order. */
  lemma FilterOrderIrrelevant(table: seq<Item>, p: Params)
    ensures Where(Where(Where(table, x => HasType(x, p.itemType)), x => HasGenre(x, p.genre)),
                  x => ScoreAtLeast(x, p.score))
         == Filtered(table, p)
  {
    ChainIsConjunction(table, x => HasType(x, p.itemType), x => HasGenre(x, p.genre),
                       x => ScoreAtLeast(x, p.score), x => Matches(x, p));
  }

  /** `getSampleOne`: `null` exactly when no row matches, otherwise a
      one-element array holding a matching row chosen by `draw`. */
  function GetSampleOne(table: seq<Item>, p: Params, draw: nat): (r: Option<seq<Item>>)
    ensures r.None? <==> forall x :: x in table ==> !Matches(x, p)
    ensures r.Some? ==> |r.value| == 1 && r.value[0] in table && Matches(r.value[0], p)
  {
    var subset := Filtered(table, p);
    if |subset| == 0 then None else Some([Pick(subset, draw)])
  }

  /** Every matching row is a possible sample. */
  lemma GetSampleOneReachesEvery(table: seq<Item>, p: Params, x: Item)
    requires x in table && Matches(x, p)
    ensures exists draw: nat :: GetSampleOne(table, p, draw) == Some([x])
  {
    var subset := Filtered(table, p);
    var i :| 0 <= i < |subset| && subset[i] == x;
    PickCovers(subset, i);
    assert GetSampleOne(table, p, i) == Some([x]);
  }
}

=== FILE: Wrappers.dfy ===
/** The optional value and the success-or-error outcome every module of the
    picker answers with. */
module Wrappers {

  datatype Option<+T> = None | Some(value: T)

  datatype Result<+R, +E> = Success(value: R) | Failure(error: E)
}
